=== FILE: README.md ===
# Snake game engine — Dafny model

A model of the game-state engine of a terminal snake game written in C
(`main.c`). The game runs on a fixed 30 × 15 map whose perimeter is wall. A
snake of segments moves one cell per step in its heading. It dies on a wall or
on itself unless invincible. Eating food adds a point and a segment. A power-up
has one of four effects: two bonus points, shrinking by one segment, five moves
of invincibility, or a "teleport".

The model is functional. A `Game` is an immutable value; `moveSnake`,
`updateDirection`, `applyPowerUp`, `resetMap` and the spawners are pure
functions. The C `rand()` is replaced by an explicit stream of the values it
would return (`Draws`, a `seq<nat>`), consumed in the program's order:
- pairs of draws for each proposal of the rejection loops;
- one draw for `rand() % 4` in `applyPowerUp`, then a pair for the teleport cell;
- one draw for `rand() % 10` in the main loop.

Modules, following the program's structure:
- `Grid` (`grid.dfy`): constants, positions, map cells, `initializeMap`.
- `Snakes` (`snake.dfy`): the snake record, `updateDirection`, the head offset,
  `initializeSnake`, the body shift and the invincibility countdown.
- `Spawner` (`spawner.dfy`): the rejection loop shared by `generateFood` and
  `generatePowerUp`.
- `Engine` (`engine.dfy`): the `Game` record, `resetMap`, the spawners,
  `applyPowerUp` and `moveSnake`, split into its stages.
- `StepProperties` (`step_properties.dfy`): what one move does in each case.
- `GameLoop` (`game_loop.dfy`): one main-loop pass and the start-up sequence.
- `Wrappers` (`wrappers.dfy`): `Option`.

Quirks of the code that the model keeps:
- The self-collision scan includes the current tail, which is about to move
  away.
- Food is scored and regenerated before the body moves.
- The teleport writes `body[0]`, the shift then copies it into `body[1]`, and
  the head is overwritten with the cell ahead. So the teleport cell ends up as
  the second segment and the head does not jump.
- Invincibility skips the wall test as well as the body test, so an
  invincible head can leave the map.
- The invincibility countdown runs only on moves that go through.
- Power-up kind 2 sets the timer to 5, and the same move already counts it
  down to 4.
- Both spawners read the map as it was stamped at the top of the loop pass,
  before the move. So a power-up can appear on the new head or on freshly
  regenerated food, and food and power-up can then be eaten in one move.
- The very first food can spawn on the snake (see Findings).

Representation notes:
- `Snake.body` holds exactly the live segments `body[0 .. length)` of the C
  array, so the length is `|body|`.
- When `length++` opens a new last slot, the model fills it with a copy of the
  tail. The shift overwrites that slot before anything reads it, as in the C
  code, where the slot holds stale memory.
- `capacity` is kept as an integer field and doubles exactly as in the code.
- A move that returns `false` is `Crashed(cause)`. The caller keeps its
  unchanged `Game` value, as the C code leaves the game untouched on that path.

## Model

| member | source | states |
|---|---|---|
| `Grid.InitializeMap` | main.c:104-111 | the map is 15 rows of 30 cells; a cell is a wall exactly when it fails the interior test `moveSnake` uses for wall collisions, and is empty exactly when it passes it |
| `Snakes.UpdateDirection` | main.c:238-252 | the heading never becomes the opposite of the current one; a non-arrow key or a backwards arrow keeps it; any other arrow sets it; nothing else in the snake changes |
| `Snakes.NextHead` | main.c:186-192 | the next head is one of the four neighbouring cells (squared distance 1): up is towards row 0, down towards the last row, left towards column 0, right towards the last column |
| `Snakes.NextHeadOpposite` | main.c:186-192 | stepping one cell and then one cell in the opposite direction returns to the start, and a step always changes the cell |
| `Snakes.InitializeSnake` | main.c:114-130 | three segments at (15 − i, 7), pairwise distinct and inside the walls; heading right; not invincible with timer 0; capacity 103; the second segment is the cell one step behind the head, opposite the heading |
| `Snakes.Shift` | main.c:224-227 | same length; the head becomes the given cell and each later segment takes its predecessor's cell |
| `Snakes.ShiftInPlace` | main.c:224-227 | the backwards copy loop followed by the head write computes exactly `Shift` |
| `Snakes.CountDown` | main.c:230-232 | only the status changes; an invincible snake loses one move and stays invincible exactly while more than one move was left; a non-invincible snake is unchanged |
| `Snakes.CountDownKeepsStatus` | main.c:230-232 | starting from the between-moves status invariant, or from a freshly set five-move timer, the countdown restores the invariant (invincible exactly while 1..4 moves remain) |
| `Snakes.CountDownLeavesTimer` | main.c:230-232 | after n countdowns (n at most the timer) the timer dropped by n, and the snake is still invincible exactly when n is below the starting timer |
| `Snakes.InvincibilityLastsFiveMoves` | main.c:266-269 | a fresh five-move invincibility stays on for the first four countdowns and ends at the fifth |
| `Spawner.Candidate` | main.c:135-136 | every proposal `(d0 % 28 + 1, d1 % 13 + 1)` lies strictly inside the walls |
| `Spawner.FirstAccepted` | main.c:134-137 | finds the first proposal from a given pair onward whose map cell is empty, all earlier ones being rejected; it finds none only when no remaining proposal is acceptable |
| `Spawner.Spawn` | main.c:133-138 | the chosen cell is interior and empty on the map; it is the first acceptable proposal, exactly its pairs are consumed, and none is chosen only when no proposal in the draws is acceptable |
| `Spawner.SpawnReachesEveryEmptyCell` | main.c:134-137 | every empty interior cell can be chosen: the two draws that propose it lead the loop straight to it |
| `Engine.StampBody` | main.c:157-159 | a cell shows the snake exactly when some segment is on it, and is otherwise unchanged |
| `Engine.ResetMap` | main.c:151-164 | only the map changes; the interior is cleared first, then each cell shows the power-up, else the food, else a segment, else empty if interior, else its old content |
| `Engine.ResetMapOccupancy` | main.c:151-164 | after stamping, a cell is empty exactly when it is interior and free of segments, food and power-up; with all entities inside the walls, perimeter walls stay walls |
| `Engine.GenerateFood` | main.c:133-138 | only the food moves, to the first proposed cell that is empty on the map read; it fails only when no proposal in the draws is acceptable |
| `Engine.GeneratePowerUp` | main.c:141-148 | a power-up becomes active on the first proposed cell that is empty on the map read; nothing else changes |
| `Engine.ApplyPowerUp` | main.c:255-275 | by the first draw mod 4: +2 score; drop the last segment only if more than one; invincible with timer 5; or overwrite only `body[0]` with an interior cell from the next two draws. The map, food and power-up are left alone and the score never drops |
| `Engine.EatFood` | main.c:207-215 | off the food nothing happens; on the food: score +1, length +1 with the old segments kept in place, capacity doubled only when the length had reached it, length ≤ capacity kept; the new food is the first proposal that is empty on the map, and exactly the pairs of draws up to it are consumed |
| `Engine.TakePowerUp` | main.c:218-221 | off the power-up nothing happens; on it the result is exactly `ApplyPowerUp`'s with the power-up cleared, and it fails only when `ApplyPowerUp` runs out of draws; at most the last segment is lost, only the head cell may change and only to an interior cell, and the score does not drop |
| `Engine.Land` | main.c:206-221 | between the collision tests and the shift: the map and heading stay, the score does not drop, segments behind the head are kept, a power-up that was not landed on stays, regenerated food is on a cell the map shows empty, and a valid game stays valid apart from its status, which is as before or freshly set |
| `Engine.Advance` | main.c:223-232 | the head goes to the given cell, each later segment to its predecessor's cell, and the status counts down; nothing else changes |
| `Engine.MoveSnake` | main.c:182-235 | unless invincible, the move fails exactly on leaving the interior (wall) or hitting any segment including the tail (body). A move that goes through keeps map and heading, puts the head one cell ahead, shifts segments 2.. from their predecessors, keeps segment 1 unless a teleport put an interior cell there, and changes length by at most one. It never lowers the score, clears a picked-up power-up, keeps one it did not land on, never creates one, puts regenerated food only on an interior cell the map shows empty, and preserves `Valid` |
| `StepProperties.PlainMove` | main.c:223-232 | with neither food nor power-up ahead the move goes through, the body is the shifted body, and score, food, power-up and capacity stay; no draw is used |
| `StepProperties.EatingGrows` | main.c:207-227 | eating with no power-up ahead goes through whenever some proposal in the draws is an empty cell; the new body is the new head followed by the whole old body; score +1; capacity doubles only when full; new food interior and empty |
| `StepProperties.FoodAndPowerUpTogether` | main.c:207-221 | food and power-up on the cell ahead, with pair k the first acceptable proposal: both apply in one move, the food goes to proposal k and the draw after that pair picks the kind. Score +1, plus 2 for kind 0; length +1, except kind 1 (grow then shrink, net 0); kind 2 leaves 4 invincible moves; the power-up is gone |
| `StepProperties.FoodStaysUntilEaten` | main.c:207-215 | a move with no food ahead leaves the food in place |
| `StepProperties.ScoreBonusPickup` | main.c:260-262 | kind 0: score +2, body shifted as in a plain move, power-up gone |
| `StepProperties.ShrinkPickup` | main.c:263-265 | kind 1: length drops by one but never below 1; head ahead; remaining segments follow their predecessors; score unchanged |
| `StepProperties.InvincibilityPickup` | main.c:266-269 | kind 2: after the move the snake is invincible with 4 moves left; score unchanged, body shifted as in a plain move, power-up gone |
| `StepProperties.TeleportLandsBehindHead` | main.c:270-273 | kind 3: the head still goes to the cell ahead; the teleport cell becomes the second segment; length and score unchanged, power-up gone; a one-segment snake is unaffected |
| `StepProperties.InvincibilityCountsDown` | main.c:230-232 | unless the move picks up an invincibility power-up (no pickup, or a kind 0, 1 or 3 pickup without food on the same cell), a successful move lowers an active timer by one and keeps invincibility exactly while more than one move was left |
| `StepProperties.TurnNeverHitsNeck` | main.c:245-251 | after `updateDirection` with any key, the next head is never the second segment, provided that segment is right behind the head |
| `StepProperties.MoveKeepsNeck` | main.c:224-227 | a move without a power-up pickup leaves the second segment right behind the head |
| `GameLoop.Tick` | main.c:79-94 | one loop pass: it crashes exactly when the updated snake would. When it goes through, the snake has the heading `updateDirection` chose, its head is one cell ahead of the old head in that heading, its length changed by at most one, and segments 2.. sit on their predecessors' old cells; `Valid` holds, the score has not dropped, and the map is the one stamped before the move. Regenerated food is on a cell that map showed empty, so it is off the pre-move snake. An active power-up is either the one active before or a new one on a cell that map showed empty, off the pre-move snake and food |
| `GameLoop.MaybeSpawnPowerUp` | main.c:90-93 | with a power-up active nothing happens and no draw is used; otherwise a draw not divisible by 10 spawns nothing, and a draw divisible by 10 makes a power-up active unless no proposal in the remaining draws is acceptable; only the power-up can change, and an active power-up afterwards is the old one or a new one on an interior cell the map shows empty |
| `GameLoop.EmptyAfterResetIsFree` | main.c:151-164 | a cell that reads empty after `resetMap` holds no segment, no food and no active power-up |
| `GameLoop.TickKeepsSnakeInside` | main.c:194-197 | a non-invincible snake inside the walls is still inside them after any pass that goes through, so the next `resetMap` stays in bounds |
| `GameLoop.MovedSnakeInside` | main.c:194-197 | the same for one `moveSnake` call |
| `GameLoop.StartAsWritten` | main.c:70-76 | start-up as written: score 0, no power-up, the initial snake (three segments at (15 − i, 7), heading right, not invincible, timer 0, capacity 103), and food placed on the very first proposal, because the map read does not show the snake |
| `GameLoop.FoodUnderSnakeAtStart` | main.c:74-76 | with draws 14, 6 the program starts with the food on the snake's head |
| `GameLoop.Start` | main.c:74-76 | start-up with the snake drawn before the food is placed: a valid game with score 0, no power-up and the initial snake (segments, heading, status and capacity), inside the walls, whose food is not on the snake; it fails only when every proposal falls on the snake |

## Left out

- Terminal I/O is left out: `initscr`, `getch`, `timeout`, `displayMap`, `clear`, `mvaddch`, `mvprintw`, `refresh`, `endwin` and `printf`. A key press is the `Key` value passed to `UpdateDirection`.
- `rand()` and `srand(time(NULL))` are replaced by the explicit `Draws` stream.
- The rejection loops need not terminate. When the stream ends first, the model reports `None` or `OutOfDraws` rather than looping.
- `malloc`, `realloc` and `free` are left out, and so is allocation failure. The body is a sequence; `capacity` is tracked as a number only.
- C `int` overflow of the score, the capacity and the timer is not modelled: integers are unbounded.
- `resetMap` writing outside the array, after an invincible head has left the map, is undefined behaviour in C. It is excluded by the `Placed` precondition of `ResetMap` and `Tick` rather than modelled.
- The loop's `break` on a failed move, the game-over message and the final `free` are left out.
- `Game.powerUp` starts uninitialised in C. The model starts it at (0, 0); it is read only while `hasPowerUp` holds.
- Engine.MoveSnake: its own contract states the outcome of a move only in general terms. The exact score and length change is stated by the `StepProperties` lemmas for each case: plain move, eating, each power-up kind, and food with a power-up on the same cell.
- GameLoop.Tick: the power-up spawn can still land on the new head or on freshly regenerated food, because it reads the map stamped before the move. The contract only promises that it avoids the pre-move snake and food.

## Findings

| source | as written | input that shows it | evidently intended | confidence | as-written member | corrected member |
|---|---|---|---|---|---|---|
| main.c:74-76 | the first `generateFood` runs on the freshly walled map, before any `resetMap` has drawn the snake, so every interior cell counts as empty | the draws 14 and 6 propose (15, 7), the initial head, and it is accepted | the rejection loop keeps food off the snake, so the snake should be on the map before the first food is placed | not executed; high | `GameLoop.FoodUnderSnakeAtStart` | `GameLoop.Start` |

=== FILE: engine.dfy ===
/**
 The game state and the simulation step of `main.c`: stamping the map,
 spawning food and power-ups, the power-up effects and `moveSnake`.
 */
module Engine {

  import opened Wrappers
  import opened Grid
  import opened Snakes
  import opened Spawner

  /**
   The program's `Game` record. `powerUp` is meaningful only while
   `hasPowerUp` holds.
   */
  datatype Game = Game(board: Board, snake: Snake, food: Position, powerUp: Position,
                       hasPowerUp: bool, score: int)

  /** Why `moveSnake` returned false. */
  datatype Collision = HitWall | HitBody

  /**
   The outcome of one move: the program either returns true with the updated
   game, or returns false (leaving the game as it was), or, in this model,
   the supplied draws ran out inside a call to `rand()`.
   */
  datatype MoveResult = Moved(game: Game, rest: Draws) | Crashed(cause: Collision) | OutOfDraws

  /** What holds of every game between two moves while play is normal. */
  predicate Valid(g: Game) {
    && WellFormed(g.board)
    && 1 <= |g.snake.body| <= g.snake.capacity
    && StatusOk(g.snake)
    && g.score >= 0
    && Interior(g.food)
    && (g.hasPowerUp ==> Interior(g.powerUp))
  }

  /** Everything `resetMap` stamps lies inside the C array. */
  predicate Placed(g: Game) {
    && (forall i :: 0 <= i < |g.snake.body| ==> InBounds(g.snake.body[i]))
    && InBounds(g.food)
    && (g.hasPowerUp ==> InBounds(g.powerUp))
  }

  // ---------------------------------------------------------------------------
  // resetMap

  /**
   What the map shows at `p` once `resetMap` has run: the last thing written
   there wins (power-up over food over snake), an interior cell nothing was
   written to is empty, and a perimeter cell keeps what it had.
   */
  function Stamped(g: Game, p: Position): Cell
    requires WellFormed(g.board) && InBounds(p)
  {
    if g.hasPowerUp && p == g.powerUp then PowerUp
    else if p == g.food then Food
    else if p in g.snake.body then SnakePart
    else if Interior(p) then Empty
    else At(g.board, p)
  }

  /** The second loop of `resetMap`: draw the segments in order. */
  function StampBody(m: Board, body: seq<Position>): (r: Board)
    requires WellFormed(m)
    requires forall i :: 0 <= i < |body| ==> InBounds(body[i])
    ensures WellFormed(r)
    ensures forall p :: InBounds(p) ==> At(r, p) == (if p in body then SnakePart else At(m, p))
    decreases |body|
  {
    if |body| == 0 then m
    else StampBody(Put(m, body[0], SnakePart), body[1..])
  }

  /**
   `resetMap`: rewrite the map from the entities. Only the map changes, and
   every cell ends up as `Stamped` describes.
   */
  function ResetMap(g: Game): (r: Game)
    requires WellFormed(g.board) && Placed(g)
    ensures r == g.(board := r.board)
    ensures WellFormed(r.board)
    ensures forall p :: InBounds(p) ==> At(r.board, p) == Stamped(g, p)
  {
    var cleared := seq(|g.board|, y requires 0 <= y < |g.board| =>
                     seq(|g.board[y]|, x requires 0 <= x < |g.board[y]| =>
                       if Interior(Position(x, y)) then Empty else g.board[y][x]));
    var m := StampBody(cleared, g.snake.body);
    var m := Put(m, g.food, Food);
    var m := if g.hasPowerUp then Put(m, g.powerUp, PowerUp) else m;
    g.(board := m)
  }

  /**
   After `resetMap` a cell reads empty exactly when it is inside the walls
   and no segment, food or power-up is on it; and as long as every entity is
   inside the walls, the perimeter is left as it was.
   */
  lemma ResetMapOccupancy(g: Game, p: Position)
    requires WellFormed(g.board) && Placed(g) && InBounds(p)
    requires forall q :: InBounds(q) && !Interior(q) ==> At(g.board, q) == Wall
    ensures At(ResetMap(g).board, p) == Empty <==>
              Interior(p) && p !in g.snake.body && p != g.food && !(g.hasPowerUp && p == g.powerUp)
    ensures (&& !Interior(p)
             && (forall i :: 0 <= i < |g.snake.body| ==> Interior(g.snake.body[i]))
             && Interior(g.food) && (g.hasPowerUp ==> Interior(g.powerUp)))
            ==> At(ResetMap(g).board, p) == Wall
  {
  }

  // ---------------------------------------------------------------------------
  // generateFood, generatePowerUp

  /**
   `generateFood`: only the food moves, to the first proposed cell that is
   empty on the current map (always an interior cell), and exactly the pairs of
   draws up to that proposal are consumed; no cell is chosen only when the
   draws hold no acceptable proposal.
   */
  function GenerateFood(g: Game, draws: Draws): (r: Option<(Game, Draws)>)
    requires WellFormed(g.board)
    ensures r.Some? ==> r.value.0 == g.(food := r.value.0.food)
    ensures r.Some? ==> Interior(r.value.0.food) && At(g.board, r.value.0.food) == Empty
    ensures r.Some? ==> exists k: nat :: 2 * k + 1 < |draws| && r.value.0.food == Candidate(draws, k)
                          && r.value.1 == draws[2 * k + 2..]
                          && forall j :: 0 <= j < k ==> !Accepted(g.board, draws, j)
    ensures r.None? <==> forall k :: 0 <= k && 2 * k + 1 < |draws| ==> !Accepted(g.board, draws, k)
  {
    match Spawn(g.board, draws)
    case None => None
    case Some(Placement(cell, rest)) => Some((g.(food := cell), rest))
  }

  /**
   `generatePowerUp`: a power-up appears on the first proposed cell that is
   empty on the current map; nothing else changes.
   */
  function GeneratePowerUp(g: Game, draws: Draws): (r: Option<(Game, Draws)>)
    requires WellFormed(g.board)
    ensures r.Some? ==> r.value.0 == g.(powerUp := r.value.0.powerUp, hasPowerUp := true)
    ensures r.Some? ==> Interior(r.value.0.powerUp) && At(g.board, r.value.0.powerUp) == Empty
    ensures r.Some? ==> exists k: nat :: 2 * k + 1 < |draws| && r.value.0.powerUp == Candidate(draws, k)
                          && r.value.1 == draws[2 * k + 2..]
                          && forall j :: 0 <= j < k ==> !Accepted(g.board, draws, j)
    ensures r.None? <==> forall k :: 0 <= k && 2 * k + 1 < |draws| ==> !Accepted(g.board, draws, k)
  {
    match Spawn(g.board, draws)
    case None => None
    case Some(Placement(cell, rest)) => Some((g.(powerUp := cell, hasPowerUp := true), rest))
  }

  // ---------------------------------------------------------------------------
  // applyPowerUp

  const ScoreBonus: int := 2

  /**
   `applyPowerUp`: the first draw picks one of four effects (`rand() % 4`):
   0 adds two points, 1 drops the last segment unless only the head is left,
   2 makes the snake invincible for five moves, 3 overwrites `body[0]` with
   the interior cell proposed by the next two draws. The map, the food and the
   power-up itself are left alone, and the score never goes down.
   */
  function ApplyPowerUp(g: Game, draws: Draws): (r: Option<(Game, Draws)>)
    requires |g.snake.body| >= 1
    ensures r.None? <==> |draws| == 0 || (draws[0] % 4 == 3 && |draws| < 3)
    ensures r.Some? ==> var h := r.value.0;
              && h == g.(score := h.score, snake := h.snake)
              && h.score >= g.score
              && h.snake.capacity == g.snake.capacity && h.snake.direction == g.snake.direction
    ensures r.Some? && draws[0] % 4 == 0 ==> var h := r.value.0;
              h.score == g.score + ScoreBonus && h.snake == g.snake && r.value.1 == draws[1..]
    ensures r.Some? && draws[0] % 4 == 1 ==> var h := r.value.0;
              && h.score == g.score
              && h.snake == g.snake.(body := h.snake.body)
              && (|g.snake.body| > 1 ==> h.snake.body == g.snake.body[..|g.snake.body| - 1])
              && (|g.snake.body| == 1 ==> h.snake.body == g.snake.body)
              && r.value.1 == draws[1..]
    ensures r.Some? && draws[0] % 4 == 2 ==> var h := r.value.0;
              && h.score == g.score
              && h.snake == g.snake.(invincible := true, timer := InvincibilityMoves)
              && r.value.1 == draws[1..]
    ensures r.Some? && draws[0] % 4 == 3 ==> var h := r.value.0;
              && h.score == g.score
              && h.snake == g.snake.(body := h.snake.body)
              && |h.snake.body| == |g.snake.body|
              && h.snake.body[1..] == g.snake.body[1..]
              && Interior(h.snake.body[0])
              && h.snake.body[0] == Candidate(draws[1..], 0)
              && r.value.1 == draws[3..]
  {
    if |draws| == 0 then None
    else
      var s := g.snake;
      var power := draws[0] % 4;
      if power == 0 then Some((g.(score := g.score + ScoreBonus), draws[1..]))
      else if power == 1 then
        var body := if |s.body| > 1 then s.body[..|s.body| - 1] else s.body;
        Some((g.(snake := s.(body := body)), draws[1..]))
      else if power == 2 then
        Some((g.(snake := s.(invincible := true, timer := InvincibilityMoves)), draws[1..]))
      else if |draws| < 3 then None
      else
        Some((g.(snake := s.(body := s.body[0 := Candidate(draws[1..], 0)])), draws[3..]))
  }

  // ---------------------------------------------------------------------------
  // moveSnake

  /**
   The food branch of `moveSnake`. Landing on the food adds a point and one
   segment (a fresh last slot, doubling the capacity when the buffer is full)
   and places new food on the first proposal that is an empty cell of the
   current map, consuming exactly the draws up to it. Otherwise nothing
   happens.
   */
  function EatFood(g: Game, next: Position, draws: Draws): (r: Option<(Game, Draws)>)
    requires WellFormed(g.board) && |g.snake.body| >= 1
    ensures next != g.food ==> r == Some((g, draws))
    ensures next == g.food ==>
              (r.None? <==> forall k :: 0 <= k && 2 * k + 1 < |draws| ==> !Accepted(g.board, draws, k))
    ensures next == g.food && r.Some? ==> var h := r.value.0;
              && h == g.(score := h.score, snake := h.snake, food := h.food)
              && h.score == g.score + 1
              && |h.snake.body| == |g.snake.body| + 1
              && h.snake.body[..|g.snake.body|] == g.snake.body
              && h.snake == g.snake.(body := h.snake.body, capacity := h.snake.capacity)
              && (|g.snake.body| < g.snake.capacity ==> h.snake.capacity == g.snake.capacity)
              && (|g.snake.body| >= g.snake.capacity ==> h.snake.capacity == 2 * g.snake.capacity)
              && (1 <= |g.snake.body| <= g.snake.capacity ==> |h.snake.body| <= h.snake.capacity)
              && Interior(h.food) && At(g.board, h.food) == Empty
              && exists k: nat :: && 2 * k + 1 < |draws| && h.food == Candidate(draws, k)
                                  && r.value.1 == draws[2 * k + 2..]
                                  && forall j :: 0 <= j < k ==> !Accepted(g.board, draws, j)
  {
    if next != g.food then Some((g, draws))
    else
      var s := g.snake;
      var capacity := if |s.body| >= s.capacity then s.capacity * 2 else s.capacity;
      // The new last slot is overwritten by the body shift before it is read.
      var grown := s.(body := s.body + [s.body[|s.body| - 1]], capacity := capacity);
      var g1 := g.(score := g.score + 1, snake := grown);
      GenerateFood(g1, draws)
  }

  /** Whether the head lands on the active power-up. */
  predicate PicksUp(g: Game, next: Position) {
    g.hasPowerUp && next == g.powerUp
  }

  /** The segments behind the head are those of `g`, except that the last
      one may be gone or a new last slot may have been added. */
  predicate TailKept(g: Game, h: Game) {
    && 1 <= |h.snake.body|
    && |g.snake.body| - 1 <= |h.snake.body| <= |g.snake.body| + 1
    && forall j :: 1 <= j < |h.snake.body| && j < |g.snake.body| ==> h.snake.body[j] == g.snake.body[j]
  }

  /** The snake's status right after the pickups of a move: as it was, or
      freshly set to five moves of invincibility. */
  predicate StatusBeforeCountDown(s: Snake) {
    StatusOk(s) || (s.invincible && s.timer == InvincibilityMoves)
  }

  /**
   The power-up branch of `moveSnake`: landing on the active power-up applies
   its effect and removes it. The head cell may only change to an interior
   cell, at most the last segment is lost, and the score does not go down.
   */
  function TakePowerUp(g: Game, next: Position, draws: Draws): (r: Option<(Game, Draws)>)
    requires |g.snake.body| >= 1
    ensures !PicksUp(g, next) ==> r == Some((g, draws))
    ensures PicksUp(g, next) ==> (r.None? <==> |draws| == 0 || (draws[0] % 4 == 3 && |draws| < 3))
    ensures PicksUp(g, next) && r.Some? ==> var h := r.value.0;
              && h == g.(score := h.score, snake := h.snake, hasPowerUp := false)
              && h.score >= g.score
              && h.snake.capacity == g.snake.capacity && h.snake.direction == g.snake.direction
              && TailKept(g, h) && |h.snake.body| <= |g.snake.body|
              && (h.snake.body[0] == g.snake.body[0] || Interior(h.snake.body[0]))
              && (StatusOk(g.snake) ==> StatusBeforeCountDown(h.snake))
    ensures PicksUp(g, next) && r.Some? ==>
              && ApplyPowerUp(g, draws).Some?
              && r.value == (ApplyPowerUp(g, draws).value.0.(hasPowerUp := false), ApplyPowerUp(g, draws).value.1)
  {
    if PicksUp(g, next) then
      match ApplyPowerUp(g, draws)
      case None => None
      case Some((h, rest)) => Some((h.(hasPowerUp := false), rest))
    else Some((g, draws))
  }

  /**
   Everything `moveSnake` does between the collision tests and the body shift:
   the food branch and then the power-up branch, drawing from the same stream.
   */
  function Land(g: Game, next: Position, draws: Draws): (r: Option<(Game, Draws)>)
    requires WellFormed(g.board) && |g.snake.body| >= 1
    ensures r.Some? ==> var h := r.value.0;
              && h.board == g.board
              && h.snake.direction == g.snake.direction
              && h.score >= g.score
              && TailKept(g, h)
              && (h.snake.body[0] == g.snake.body[0] || (PicksUp(g, next) && Interior(h.snake.body[0])))
              && (PicksUp(g, next) ==> !h.hasPowerUp)
              && (!PicksUp(g, next) ==> h.hasPowerUp == g.hasPowerUp && h.powerUp == g.powerUp)
              && (h.food != g.food ==> Interior(h.food) && At(g.board, h.food) == Empty)
              && (Valid(g) ==> Valid(h.(snake := h.snake.(timer := 0, invincible := false)))
                               && StatusBeforeCountDown(h.snake))
  {
    match EatFood(g, next, draws)
    case None => None
    case Some((g1, d1)) => TakePowerUp(g1, next, d1)
  }

  /**
   The end of `moveSnake`: the body shift puts the head on `next` and every
   other segment on its predecessor's cell, then the invincibility countdown.
   */
  function Advance(g: Game, next: Position): (r: Game)
    requires |g.snake.body| >= 1
    ensures r == g.(snake := r.snake)
    ensures r.snake == CountDown(g.snake).(body := r.snake.body)
    ensures |r.snake.body| == |g.snake.body| && r.snake.body[0] == next
    ensures forall i :: 1 <= i < |r.snake.body| ==> r.snake.body[i] == g.snake.body[i - 1]
  {
    var moved := g.snake.(body := Shift(g.snake.body, next));
    g.(snake := CountDown(moved))
  }

  /**
   `moveSnake`. Unless invincible, the move fails exactly when the next head
   leaves the interior or lands on any segment, the tail included. A move that
   goes through keeps the map and the heading, puts the head one cell ahead in
   the current direction, moves every later segment into the cell of the one
   before it (the second segment may instead hold a teleport cell), changes
   the length by at most one, never lowers the score, consumes a picked-up
   power-up (and never creates one), puts regenerated food only on a cell the
   map shows as empty, and keeps the between-moves invariant.
   */
  function MoveSnake(g: Game, draws: Draws): (r: MoveResult)
    requires WellFormed(g.board) && |g.snake.body| >= 1
    ensures var next := NextHead(g.snake.Head(), g.snake.direction);
            r.Crashed? <==> !g.snake.invincible && (!Interior(next) || next in g.snake.body)
    ensures var next := NextHead(g.snake.Head(), g.snake.direction);
            r.Crashed? ==> (r.cause == HitWall <==> !Interior(next))
    ensures r.Moved? ==> var h := r.game;
              && h.board == g.board
              && h.snake.direction == g.snake.direction
              && 1 <= |h.snake.body|
              && |g.snake.body| - 1 <= |h.snake.body| <= |g.snake.body| + 1
              && h.snake.body[0] == NextHead(g.snake.Head(), g.snake.direction)
              && (forall i :: 2 <= i < |h.snake.body| ==> h.snake.body[i] == g.snake.body[i - 1])
              && h.score >= g.score
              && (PicksUp(g, NextHead(g.snake.Head(), g.snake.direction)) ==> !h.hasPowerUp)
              && (!PicksUp(g, NextHead(g.snake.Head(), g.snake.direction)) ==>
                    h.hasPowerUp == g.hasPowerUp && h.powerUp == g.powerUp)
              && (h.hasPowerUp ==> g.hasPowerUp && h.powerUp == g.powerUp)
              && (h.food != g.food ==> Interior(h.food) && At(g.board, h.food) == Empty)
    ensures r.Moved? && |r.game.snake.body| >= 2 ==>
              r.game.snake.body[1] == g.snake.body[0]
              || (PicksUp(g, NextHead(g.snake.Head(), g.snake.direction)) && Interior(r.game.snake.body[1]))
    ensures r.Moved? && Valid(g) ==> Valid(r.game)
  {
    var s := g.snake;
    var next := NextHead(s.Head(), s.direction);
    if !s.invincible && (next.x <= 0 || next.x >= Width - 1 || next.y <= 0 || next.y >= Height - 1) then
      Crashed(HitWall)
    else if !s.invincible && next in s.body then
      Crashed(HitBody)
    else
      match Land(g, next, draws)
      case None => OutOfDraws
      case Some((h, rest)) => Moved(Advance(h, next), rest)
  }
}

=== FILE: game_loop.dfy ===
/**
 The start-up sequence and one iteration of the main loop of `main.c`:
 stamp the map, read a key, move, and perhaps spawn a power-up.
 */
module GameLoop {

  import opened Wrappers
  import opened Grid
  import opened Snakes
  import opened Spawner
  import opened Engine

  /** A power-up is requested when `rand() % 10 == 0`. */
  const PowerUpOdds: int := 10

  /**
   One pass through the main loop: `resetMap`, `updateDirection` with the key
   read, `moveSnake`, then, when no power-up is active, one draw decides
   whether `generatePowerUp` runs. Spawning reads the map stamped at the top of
   the pass, before the move. A pass that goes through keeps the invariant and
   the score's monotonicity, leaves the stamped map in place, and puts any
   regenerated food or new power-up on a cell that map showed as empty, hence
   off the snake as it was before the move. A power-up still active after the
   pass is either the one that was active before it or such a new one.
   */
  function Tick(g: Game, key: Key, draws: Draws): (r: MoveResult)
    requires Valid(g) && Placed(g)
    ensures var s := UpdateDirection(g.snake, key);
            var next := NextHead(s.Head(), s.direction);
            r.Crashed? <==> !s.invincible && (!Interior(next) || next in s.body)
    ensures r.Moved? ==> Valid(r.game) && r.game.score >= g.score
    ensures r.Moved? ==> r.game.board == ResetMap(g).board
    ensures r.Moved? && r.game.hasPowerUp ==>
              (g.hasPowerUp && r.game.powerUp == g.powerUp)
              || (&& At(ResetMap(g).board, r.game.powerUp) == Empty
                  && r.game.powerUp !in g.snake.body && r.game.powerUp != g.food)
    ensures r.Moved? ==> var s := UpdateDirection(g.snake, key); var b := r.game.snake.body;
              && r.game.snake.direction == s.direction
              && |g.snake.body| - 1 <= |b| <= |g.snake.body| + 1
              && b[0] == NextHead(g.snake.Head(), s.direction)
              && (forall i :: 2 <= i < |b| ==> b[i] == g.snake.body[i - 1])
    ensures r.Moved? && r.game.food != g.food ==>
              At(ResetMap(g).board, r.game.food) == Empty && r.game.food !in g.snake.body
  {
    var g1 := ResetMap(g);
    var g2 := g1.(snake := UpdateDirection(g1.snake, key));
    EmptyAfterResetIsFree(g);
    match MoveSnake(g2, draws)
    case Moved(g3, d3) => MaybeSpawnPowerUp(g3, d3)
    case Crashed(c) => Crashed(c)
    case OutOfDraws => OutOfDraws
  }

  /**
   The end of a loop pass: with no power-up active, one draw decides (one
   chance in ten) whether `generatePowerUp` runs; when it runs, a power-up
   appears unless no proposal in the remaining draws is acceptable. Only the
   power-up can change, and a power-up active afterwards is either the one active before
   or a new one on a cell the map shows as empty.
   */
  function MaybeSpawnPowerUp(g: Game, draws: Draws): (r: MoveResult)
    requires WellFormed(g.board)
    ensures !r.Crashed?
    ensures g.hasPowerUp ==> r == Moved(g, draws)
    ensures !g.hasPowerUp && |draws| >= 1 && draws[0] % PowerUpOdds != 0 ==> r == Moved(g, draws[1..])
    ensures !g.hasPowerUp && |draws| >= 1 && draws[0] % PowerUpOdds == 0 ==>
              && (r.Moved? <==> exists k: nat :: 2 * k + 1 < |draws[1..]| && Accepted(g.board, draws[1..], k))
              && (r.Moved? ==> r.game.hasPowerUp)
    ensures r.Moved? ==> r.game == g.(powerUp := r.game.powerUp, hasPowerUp := r.game.hasPowerUp)
    ensures r.Moved? && r.game.hasPowerUp ==>
              (g.hasPowerUp && r.game.powerUp == g.powerUp)
              || (Interior(r.game.powerUp) && At(g.board, r.game.powerUp) == Empty)
  {
    if g.hasPowerUp then Moved(g, draws)
    else if |draws| == 0 then OutOfDraws
    else if draws[0] % PowerUpOdds != 0 then Moved(g, draws[1..])
    else
      match GeneratePowerUp(g, draws[1..])
      case None => OutOfDraws
      case Some((h, rest)) => Moved(h, rest)
  }

  /** A cell that reads empty once `resetMap` has run holds no segment, no food
      and no active power-up. */
  lemma EmptyAfterResetIsFree(g: Game)
    requires WellFormed(g.board) && Placed(g)
    ensures forall p :: InBounds(p) && At(ResetMap(g).board, p) == Empty ==>
              p !in g.snake.body && p != g.food && !(g.hasPowerUp && p == g.powerUp)
  {
  }

  /** Every segment is strictly inside the walls. */
  predicate InsideWalls(s: Snake) {
    forall i :: 0 <= i < |s.body| ==> Interior(s.body[i])
  }

  /**
   A snake that is not invincible and lies inside the walls is still inside
   them after a pass, so the next `resetMap` stays within the array. Only an
   invincible snake can leave it.
   */
  lemma TickKeepsSnakeInside(g: Game, key: Key, draws: Draws)
    requires Valid(g) && Placed(g) && InsideWalls(g.snake) && !g.snake.invincible
    ensures Tick(g, key, draws).Moved? ==>
              InsideWalls(Tick(g, key, draws).game.snake) && Placed(Tick(g, key, draws).game)
  {
  }

  /** The same for a single `moveSnake` call, teleport cell included. */
  lemma MovedSnakeInside(g: Game, draws: Draws)
    requires WellFormed(g.board) && |g.snake.body| >= 1
    requires InsideWalls(g.snake) && !g.snake.invincible
    requires MoveSnake(g, draws).Moved?
    ensures InsideWalls(MoveSnake(g, draws).game.snake)
  {
  }

  /**
   The start-up sequence as the program runs it: score 0, no power-up, the
   walled map, the initial snake, then `generateFood` on that map. The map
   does not show the snake yet, so every interior cell is acceptable and the
   very first proposal is taken, whatever the snake covers.
   */
  method StartAsWritten(draws: Draws) returns (r: Option<(Game, Draws)>)
    ensures r.Some? <==> |draws| >= 2
    ensures r.Some? ==> var g := r.value.0;
              && Valid(g) && Placed(g) && g.score == 0 && !g.hasPowerUp
              && |g.snake.body| == InitialLength && g.snake.direction == Right
              && !g.snake.invincible && g.snake.timer == 0 && g.snake.capacity == InitialCapacity
              && (forall i :: 0 <= i < |g.snake.body| ==> g.snake.body[i] == Position(Width / 2 - i, Height / 2))
              && g.food == Candidate(draws, 0) && r.value.1 == draws[2..]
  {
    var board := InitializeMap();
    var snake := InitializeSnake();
    var g := Game(board, snake, Position(0, 0), Position(0, 0), false, 0);
    if |draws| >= 2 {
      assert Accepted(board, draws, 0);
    }
    r := GenerateFood(g, draws);
  }

  /**
   The draws 14 and 6 propose the cell (15, 7), which is the initial head:
   the program starts with the food under the snake.
   */
  method FoodUnderSnakeAtStart() returns (g: Game)
    ensures |g.snake.body| == InitialLength
    ensures g.food == g.snake.Head()
  {
    var r := StartAsWritten([14, 6]);
    g := r.value.0;
    assert Candidate([14, 6], 0) == Position(15, 7);
  }

  /** The cells the initial snake covers: three cells of the middle row
      ending at the centre column. */
  predicate OnInitialSnake(p: Position) {
    p.y == Height / 2 && Width / 2 - InitialLength < p.x <= Width / 2
  }

  /**
   The start-up sequence with the snake drawn on the map before the food is
   placed: the food then never starts on a segment. It is otherwise the
   program's sequence, and it fails only when every proposal in the draws
   falls on the snake.
   */
  method Start(draws: Draws) returns (r: Option<(Game, Draws)>)
    ensures r.Some? ==> var g := r.value.0;
              && Valid(g) && Placed(g) && InsideWalls(g.snake)
              && g.score == 0 && !g.hasPowerUp && !g.snake.invincible
              && g.snake.timer == 0 && g.snake.capacity == InitialCapacity
              && |g.snake.body| == InitialLength && g.snake.direction == Right
              && (forall i :: 0 <= i < |g.snake.body| ==> g.snake.body[i] == Position(Width / 2 - i, Height / 2))
              && g.food !in g.snake.body
    ensures r.None? <==> forall k :: 0 <= k && 2 * k + 1 < |draws| ==> OnInitialSnake(Candidate(draws, k))
  {
    var walls := InitializeMap();
    var snake := InitializeSnake();
    var board := StampBody(walls, snake.body);
    forall p | InBounds(p)
      ensures At(board, p) == Empty <==> Interior(p) && !OnInitialSnake(p)
    {
      if OnInitialSnake(p) {
        assert snake.body[Width / 2 - p.x] == p;
      }
    }
    forall k | 0 <= k && 2 * k + 1 < |draws|
      ensures Accepted(board, draws, k) <==> !OnInitialSnake(Candidate(draws, k))
    {
      assert InBounds(Candidate(draws, k));
    }
    var g := Game(board, snake, Position(0, 0), Position(0, 0), false, 0);
    r := GenerateFood(g, draws);
  }
}

=== FILE: grid.dfy ===
/**
 The fixed 30 x 15 game map. The map is a grid of cells indexed as `map[y][x]`,
 exactly as the program's `char map[HEIGHT][WIDTH]`; a wall runs along its
 perimeter and everything strictly inside it is playable.
 */
module Grid {

  const Width: int := 30
  const Height: int := 15

  datatype Position = Position(x: int, y: int)

  /** The characters the program draws into its map. */
  datatype Cell = Wall | Empty | SnakePart | Food | PowerUp

  type Board = seq<seq<Cell>>

  /** A board has `Height` rows of `Width` cells each. */
  predicate WellFormed(m: Board) {
    |m| == Height && forall y :: 0 <= y < |m| ==> |m[y]| == Width
  }

  /** The cell lies inside the C array. */
  predicate InBounds(p: Position) {
    0 <= p.x < Width && 0 <= p.y < Height
  }

  /** The cell lies strictly inside the perimeter: exactly the cells a head may
      enter without hitting a wall. */
  predicate Interior(p: Position) {
    0 < p.x < Width - 1 && 0 < p.y < Height - 1
  }

  function At(m: Board, p: Position): Cell
    requires WellFormed(m) && InBounds(p)
  {
    m[p.y][p.x]
  }

  /** Writes one cell and leaves all others alone. */
  function Put(m: Board, p: Position, c: Cell): (r: Board)
    requires WellFormed(m) && InBounds(p)
    ensures WellFormed(r)
    ensures At(r, p) == c
    ensures forall q :: InBounds(q) && q != p ==> At(r, q) == At(m, q)
  {
    m[p.y := m[p.y][p.x := c]]
  }

  /**
   The nested loops of `initializeMap`: row by row, a cell becomes a wall when
   it is on the first or last row or column and empty otherwise. The contract
   says the walls are exactly the cells the move's collision test rejects.
   */
  method InitializeMap() returns (m: Board)
    ensures WellFormed(m)
    ensures forall p :: InBounds(p) ==> (At(m, p) == Wall <==> !Interior(p))
    ensures forall p :: InBounds(p) ==> (At(m, p) == Empty <==> Interior(p))
  {
    m := [];
    var i := 0;
    while i < Height
      invariant 0 <= i <= Height && |m| == i
      invariant forall y :: 0 <= y < i ==> |m[y]| == Width
      invariant forall y, x :: 0 <= y < i && 0 <= x < Width ==>
                  m[y][x] == (if Interior(Position(x, y)) then Empty else Wall)
    {
      var row: seq<Cell> := [];
      var j := 0;
      while j < Width
        invariant 0 <= j <= Width && |row| == j
        invariant forall x :: 0 <= x < j ==>
                    row[x] == (if Interior(Position(x, i)) then Empty else Wall)
      {
        var c := if i == 0 || i == Height - 1 || j == 0 || j == Width - 1 then Wall else Empty;
        row := row + [c];
        j := j + 1;
      }
      m := m + [row];
      i := i + 1;
    }
  }
}

=== FILE: snake.dfy ===
/**
 The snake: its body (head first), the capacity of the buffer that holds it,
 its heading and its invincibility status, with the operations of `main.c`
 that touch nothing but the snake.
 */
module Snakes {

  import opened Grid

  const InitialLength: int := 3
  /** `initializeSnake` allocates room for 100 segments beyond the initial ones. */
  const InitialCapacity: int := InitialLength + 100
  /** Number of moves an invincibility power-up is set to last. */
  const InvincibilityMoves: int := 5

  datatype Direction = Up | Down | Left | Right

  /** What `getch` delivered: one of the four arrow keys, or anything else
      (including the timeout's "no key"). */
  datatype Key = Arrow(dir: Direction) | OtherKey

  /**
   The body holds exactly the live segments `body[0 .. length)` of the
   program's array, so `length` is `|body|`; `capacity` is the size of the
   allocated array.
   */
  datatype Snake = Snake(body: seq<Position>, capacity: int, direction: Direction,
                         invincible: bool, timer: int)
  {
    function Head(): Position
      requires |body| > 0
    {
      body[0]
    }
  }

  function Opposite(d: Direction): Direction {
    match d
    case Up => Down
    case Down => Up
    case Left => Right
    case Right => Left
  }

  /**
   `updateDirection`: an arrow key becomes the requested heading, any other key
   keeps the current one, and the request is taken only when it is not a
   reversal of the current heading. Nothing but the heading changes.
   */
  function UpdateDirection(s: Snake, k: Key): (r: Snake)
    ensures r == s.(direction := r.direction)
    ensures r.direction != Opposite(s.direction)
    ensures k.OtherKey? ==> r.direction == s.direction
    ensures k.Arrow? && k.dir == Opposite(s.direction) ==> r.direction == s.direction
    ensures k.Arrow? && k.dir != Opposite(s.direction) ==> r.direction == k.dir
  {
    var cur := s.direction;
    var requested := if k.Arrow? then k.dir else cur;
    if (requested == Up && cur != Down) || (requested == Down && cur != Up)
       || (requested == Left && cur != Right) || (requested == Right && cur != Left)
    then s.(direction := requested)
    else s
  }

  /**
   The switch at the top of `moveSnake`: the neighbouring cell in direction
   `d`. Up is towards row 0, the top line of the screen, and Left towards
   column 0.
   */
  function NextHead(p: Position, d: Direction): (r: Position)
    ensures (r.x - p.x) * (r.x - p.x) + (r.y - p.y) * (r.y - p.y) == 1
    ensures d == Up ==> r.y < p.y
    ensures d == Down ==> r.y > p.y
    ensures d == Left ==> r.x < p.x
    ensures d == Right ==> r.x > p.x
  {
    match d
    case Up => p.(y := p.y - 1)
    case Down => p.(y := p.y + 1)
    case Left => p.(x := p.x - 1)
    case Right => p.(x := p.x + 1)
  }

  /** Moving one cell and then one cell the opposite way returns to the start,
      so an accepted reversal would put the head onto the second segment. */
  lemma NextHeadOpposite(p: Position, d: Direction)
    ensures NextHead(NextHead(p, d), Opposite(d)) == p
    ensures NextHead(p, d) != p
  {
  }

  /**
   `initializeSnake`: three segments laid out leftwards from the centre of the
   map, heading right, not invincible, with room for 103 segments. The second
   segment is right behind the head, so the first move does not run into it.
   */
  method InitializeSnake() returns (s: Snake)
    ensures |s.body| == InitialLength && s.capacity == InitialCapacity
    ensures s.direction == Right && !s.invincible && s.timer == 0
    ensures forall i :: 0 <= i < |s.body| ==> Interior(s.body[i])
    ensures forall i, j :: 0 <= i < j < |s.body| ==> s.body[i] != s.body[j]
    ensures forall i :: 0 <= i < |s.body| ==> s.body[i] == Position(Width / 2 - i, Height / 2)
    ensures s.body[1] == NextHead(s.body[0], Opposite(s.direction))
  {
    var startX := Width / 2;
    var startY := Height / 2;
    var body: seq<Position> := [];
    var i := 0;
    while i < InitialLength
      invariant 0 <= i <= InitialLength && |body| == i
      invariant forall k :: 0 <= k < i ==> body[k] == Position(startX - k, startY)
    {
      body := body + [Position(startX - i, startY)];
      i := i + 1;
    }
    s := Snake(body, InitialCapacity, Right, false, 0);
  }

  /**
   The body shift of `moveSnake`: every segment takes the cell of the one in
   front of it and the head takes `next`; the last cell is vacated.
   */
  function Shift(body: seq<Position>, next: Position): (r: seq<Position>)
    requires |body| >= 1
    ensures |r| == |body|
    ensures r[0] == next
    ensures forall i :: 1 <= i < |r| ==> r[i] == body[i - 1]
  {
    [next] + body[..|body| - 1]
  }

  /**
   The loop `for (i = length - 1; i > 0; i--) body[i] = body[i - 1]` followed by
   `body[0] = next`, run on a copy of the array; it computes `Shift`.
   */
  method ShiftInPlace(body: seq<Position>, next: Position) returns (b: seq<Position>)
    requires |body| >= 1
    ensures b == Shift(body, next)
  {
    b := body;
    var i := |b| - 1;
    while i > 0
      invariant 0 <= i < |b| && |b| == |body|
      invariant forall k :: 0 <= k <= i ==> b[k] == body[k]
      invariant forall k :: i < k < |b| ==> b[k] == body[k - 1]
    {
      b := b[i := b[i - 1]];
      i := i - 1;
    }
    b := b[0 := next];
  }

  /**
   The status invariant between moves: the snake is invincible exactly while
   moves remain on its timer, and never more than four remain (a pickup sets
   five, and the same move consumes one).
   */
  predicate StatusOk(s: Snake) {
    0 <= s.timer <= InvincibilityMoves - 1 && (s.invincible <==> s.timer > 0)
  }

  /**
   The end of `moveSnake`: an invincible snake spends one move of its timer and
   loses invincibility once the timer is used up; otherwise nothing happens.
   */
  function CountDown(s: Snake): (r: Snake)
    ensures r == s.(invincible := r.invincible, timer := r.timer)
    ensures !s.invincible ==> r == s
    ensures s.invincible ==> r.timer == s.timer - 1
    ensures r.invincible ==> s.invincible
    ensures s.invincible && s.timer > 1 ==> r.invincible
    ensures s.invincible && s.timer <= 1 ==> !r.invincible
  {
    if s.invincible then
      var t := s.timer - 1;
      s.(timer := t, invincible := !(t <= 0))
    else s
  }

  /** After a power-up has just set the timer, as well as between moves,
      counting down keeps the status invariant. */
  lemma CountDownKeepsStatus(s: Snake)
    requires StatusOk(s) || (s.invincible && s.timer == InvincibilityMoves)
    ensures StatusOk(CountDown(s))
  {
  }

  function CountDownTimes(s: Snake, n: nat): Snake
    decreases n
  {
    if n == 0 then s else CountDownTimes(CountDown(s), n - 1)
  }

  /**
   A fresh invincibility of five moves: the snake stays invincible through the
   first four countdowns and loses it at the fifth.
   */
  lemma {:induction false} InvincibilityLastsFiveMoves(s: Snake, n: nat)
    requires s.invincible && s.timer == InvincibilityMoves
    requires 1 <= n <= InvincibilityMoves
    ensures CountDownTimes(s, n).invincible <==> n < InvincibilityMoves
    ensures CountDownTimes(s, n).timer == InvincibilityMoves - n
  {
    CountDownLeavesTimer(s, n);
  }

  lemma {:induction false} CountDownLeavesTimer(s: Snake, n: nat)
    requires s.invincible && 1 <= n <= s.timer
    ensures CountDownTimes(s, n).timer == s.timer - n
    ensures CountDownTimes(s, n).invincible <==> n < s.timer
    decreases n
  {
    if n > 1 {
      CountDownLeavesTimer(CountDown(s), n - 1);
    }
  }
}

=== FILE: spawner.dfy ===
/**
 Placement of food and power-ups by rejection sampling, as in `generateFood`
 and `generatePowerUp`. The program's `rand()` is replaced by an explicit,
 finite stream of the values it would return, consumed two at a time: each
 pair proposes the cell `(d0 % 28 + 1, d1 % 13 + 1)`, and the first proposal
 whose map cell is empty is taken. If the stream ends first, no cell is
 chosen; in the program the loop would simply keep drawing.
 */
module Spawner {

  import opened Wrappers
  import opened Grid

  /** The values `rand()` returns, in the order the program asks for them. */
  type Draws = seq<nat>

  /** The cell proposed by the `k`-th pair of draws. */
  function Candidate(draws: Draws, k: nat): (p: Position)
    requires 2 * k + 1 < |draws|
    ensures Interior(p)
  {
    Position(draws[2 * k] % (Width - 2) + 1, draws[2 * k + 1] % (Height - 2) + 1)
  }

  /** The loop condition `map[y][x] != EMPTY`, negated. */
  predicate Accepted(m: Board, draws: Draws, k: nat)
    requires WellFormed(m) && 2 * k + 1 < |draws|
  {
    At(m, Candidate(draws, k)) == Empty
  }

  /** The index of the first accepted proposal from pair `i` on, if any. */
  function FirstAccepted(m: Board, draws: Draws, i: nat): (r: Option<nat>)
    requires WellFormed(m)
    ensures r.Some? ==> i <= r.value && 2 * r.value + 1 < |draws| && Accepted(m, draws, r.value)
    ensures r.Some? ==> forall k :: i <= k < r.value ==> !Accepted(m, draws, k)
    ensures r.None? ==> forall k :: i <= k && 2 * k + 1 < |draws| ==> !Accepted(m, draws, k)
    decreases |draws| - 2 * i
  {
    if 2 * i + 1 >= |draws| then None
    else if Accepted(m, draws, i) then Some(i)
    else FirstAccepted(m, draws, i + 1)
  }

  /** The chosen cell and the draws left over after the loop. */
  datatype Placement = Placement(cell: Position, rest: Draws)

  /**
   The rejection loop. The chosen cell is inside the walls and empty on the map
   the loop reads; it is the first such proposal, and exactly its pairs of
   draws are consumed. No cell is chosen only when no proposal in the stream
   is acceptable.
   */
  function Spawn(m: Board, draws: Draws): (r: Option<Placement>)
    requires WellFormed(m)
    ensures r.Some? ==> Interior(r.value.cell) && At(m, r.value.cell) == Empty
    ensures r.Some? ==> exists k: nat :: 2 * k + 1 < |draws| && r.value.cell == Candidate(draws, k)
                          && r.value.rest == draws[2 * k + 2..]
                          && forall j :: 0 <= j < k ==> !Accepted(m, draws, j)
    ensures r.None? <==> forall k :: 0 <= k && 2 * k + 1 < |draws| ==> !Accepted(m, draws, k)
  {
    match FirstAccepted(m, draws, 0)
    case None => None
    case Some(k) => Some(Placement(Candidate(draws, k), draws[2 * k + 2..]))
  }

  /** A stream that opens with the two values `rand()` returns for cell `p`
      places onto `p` whenever that cell is empty: every empty interior cell can
      be chosen. */
  lemma SpawnReachesEveryEmptyCell(m: Board, p: Position, tail: Draws)
    requires WellFormed(m) && Interior(p) && At(m, p) == Empty
    ensures Spawn(m, [p.x - 1, p.y - 1] + tail) == Some(Placement(p, tail))
  {
  }
}

=== FILE: step_properties.dfy ===
/**
 What one call of `moveSnake` does in each situation it distinguishes: a plain
 move, eating, each power-up effect, and the invincibility countdown; and how
 the reversal rule of `updateDirection` keeps the head off the second segment.
 */
module StepProperties {

  import opened Grid
  import opened Snakes
  import opened Spawner
  import opened Engine

  function Next(g: Game): Position
    requires |g.snake.body| >= 1
  {
    NextHead(g.snake.Head(), g.snake.direction)
  }

  /** A move that may go through: inside the walls and clear of the body, or
      invincible. */
  predicate Open(g: Game)
    requires |g.snake.body| >= 1
  {
    g.snake.invincible || (Interior(Next(g)) && Next(g) !in g.snake.body)
  }

  /**
   With neither food nor power-up ahead, the whole body slides one cell: the
   length, score, food and power-up stay, and no draw is consumed.
   */
  lemma PlainMove(g: Game, draws: Draws)
    requires WellFormed(g.board) && |g.snake.body| >= 1 && Open(g)
    requires Next(g) != g.food && !PicksUp(g, Next(g))
    ensures MoveSnake(g, draws).Moved?
    ensures var h := MoveSnake(g, draws).game;
            && h.snake.body == Shift(g.snake.body, Next(g))
            && h.score == g.score && h.food == g.food
            && h.hasPowerUp == g.hasPowerUp && h.powerUp == g.powerUp
            && h.snake.capacity == g.snake.capacity
            && h.snake == CountDown(g.snake).(body := h.snake.body)
            && MoveSnake(g, draws).rest == draws
  {
  }

  /**
   Eating with no power-up ahead: one more segment (the old body follows the
   new head unchanged), one more point, capacity doubled only if the buffer
   was full, and new food on an interior cell that was empty on the map.
   */
  lemma EatingGrows(g: Game, draws: Draws)
    requires WellFormed(g.board) && |g.snake.body| >= 1 && Open(g)
    requires Next(g) == g.food && !PicksUp(g, Next(g))
    requires exists k: nat :: 2 * k + 1 < |draws| && Accepted(g.board, draws, k)
    ensures MoveSnake(g, draws).Moved?
    ensures var h := MoveSnake(g, draws).game;
            && h.snake.body == [Next(g)] + g.snake.body
            && h.score == g.score + 1
            && (|g.snake.body| < g.snake.capacity ==> h.snake.capacity == g.snake.capacity)
            && (|g.snake.body| >= g.snake.capacity ==> h.snake.capacity == 2 * g.snake.capacity)
            && Interior(h.food) && At(g.board, h.food) == Empty
            && h.hasPowerUp == g.hasPowerUp
  {
  }

  /**
   Food and an active power-up on the same cell (possible, because the
   power-up spawn reads a map drawn before the food was regenerated): both
   effects apply in one move. The first acceptable pair of draws, pair `k`,
   places the new food; the draw right after it picks the power-up's kind:
   one point for the food plus two for kind 0, one segment gained and then
   lost again for kind 1, four moves of invincibility for kind 2, and for
   kind 3 the length still grows by one.
   */
  lemma FoodAndPowerUpTogether(g: Game, draws: Draws, k: nat)
    requires WellFormed(g.board) && |g.snake.body| >= 1 && Open(g)
    requires Next(g) == g.food && PicksUp(g, Next(g))
    requires 2 * k + 5 <= |draws| && Accepted(g.board, draws, k)
    requires forall j :: 0 <= j < k ==> !Accepted(g.board, draws, j)
    ensures MoveSnake(g, draws).Moved?
    ensures var h := MoveSnake(g, draws).game;
            var kind := draws[2 * k + 2] % 4;
            && h.score == g.score + 1 + (if kind == 0 then ScoreBonus else 0)
            && |h.snake.body| == |g.snake.body| + (if kind == 1 then 0 else 1)
            && h.snake.body[0] == Next(g)
            && !h.hasPowerUp
            && (kind == 2 ==> h.snake.invincible && h.snake.timer == InvincibilityMoves - 1)
            && h.food == Candidate(draws, k)
  {
  }

  /** The food is regenerated only when eaten: a move with no food ahead
      leaves it where it was. */
  lemma FoodStaysUntilEaten(g: Game, draws: Draws)
    requires WellFormed(g.board) && |g.snake.body| >= 1
    requires Next(g) != g.food && MoveSnake(g, draws).Moved?
    ensures MoveSnake(g, draws).game.food == g.food
  {
  }

  /** A power-up of kind 0 (the first draw is 0 modulo 4) adds two points and
      leaves the move otherwise plain. */
  lemma ScoreBonusPickup(g: Game, draws: Draws)
    requires WellFormed(g.board) && |g.snake.body| >= 1 && Open(g)
    requires Next(g) != g.food && PicksUp(g, Next(g))
    requires |draws| >= 1 && draws[0] % 4 == 0
    ensures MoveSnake(g, draws).Moved?
    ensures var h := MoveSnake(g, draws).game;
            && h.score == g.score + ScoreBonus
            && h.snake.body == Shift(g.snake.body, Next(g))
            && !h.hasPowerUp
  {
  }

  /** A power-up of kind 1 shortens the snake by one segment unless only the
      head is left. */
  lemma ShrinkPickup(g: Game, draws: Draws)
    requires WellFormed(g.board) && |g.snake.body| >= 1 && Open(g)
    requires Next(g) != g.food && PicksUp(g, Next(g))
    requires |draws| >= 1 && draws[0] % 4 == 1
    ensures MoveSnake(g, draws).Moved?
    ensures var h := MoveSnake(g, draws).game;
            && |h.snake.body| == (if |g.snake.body| > 1 then |g.snake.body| - 1 else 1)
            && h.snake.body[0] == Next(g)
            && (forall i :: 1 <= i < |h.snake.body| ==> h.snake.body[i] == g.snake.body[i - 1])
            && h.score == g.score
  {
  }

  /**
   A power-up of kind 2 sets five moves of invincibility, and the countdown at
   the end of the same move already spends one: four remain.
   */
  lemma InvincibilityPickup(g: Game, draws: Draws)
    requires WellFormed(g.board) && |g.snake.body| >= 1 && Open(g)
    requires Next(g) != g.food && PicksUp(g, Next(g))
    requires |draws| >= 1 && draws[0] % 4 == 2
    ensures MoveSnake(g, draws).Moved?
    ensures var h := MoveSnake(g, draws).game;
            && h.snake.invincible && h.snake.timer == InvincibilityMoves - 1
            && h.score == g.score
            && h.snake.body == Shift(g.snake.body, Next(g))
            && !h.hasPowerUp
  {
  }

  /**
   A power-up of kind 3 writes the teleport cell into `body[0]` before the
   shift, so the shift carries it into the second segment and the head still
   goes to the cell ahead; with a one-segment snake the teleport has no effect.
   */
  lemma TeleportLandsBehindHead(g: Game, draws: Draws)
    requires WellFormed(g.board) && |g.snake.body| >= 1 && Open(g)
    requires Next(g) != g.food && PicksUp(g, Next(g))
    requires |draws| >= 3 && draws[0] % 4 == 3
    ensures MoveSnake(g, draws).Moved?
    ensures var h := MoveSnake(g, draws).game;
            && h.snake.body[0] == Next(g)
            && |h.snake.body| == |g.snake.body|
            && h.score == g.score
            && !h.hasPowerUp
            && (|g.snake.body| >= 2 ==> h.snake.body[1] == Candidate(draws[1..], 0))
            && (|g.snake.body| == 1 ==> h.snake.body == [Next(g)])
  {
  }

  /**
   Unless the move picks up an invincibility power-up, a move that goes
   through spends one move of an active invincibility and ends it when none is
   left; a snake that was not invincible stays so. Picking up a power-up of
   kind 0, 1 or 3 does not touch the countdown.
   */
  lemma InvincibilityCountsDown(g: Game, draws: Draws)
    requires WellFormed(g.board) && |g.snake.body| >= 1
    requires !PicksUp(g, Next(g)) || (Next(g) != g.food && |draws| >= 1 && draws[0] % 4 != 2)
    requires MoveSnake(g, draws).Moved?
    ensures var h := MoveSnake(g, draws).game;
            && (g.snake.invincible ==> h.snake.timer == g.snake.timer - 1)
            && (h.snake.invincible <==> g.snake.invincible && g.snake.timer > 1)
  {
  }

  /** The second segment sits right behind the head, as every move leaves it
      unless a teleport intervened. */
  predicate NeckBehindHead(s: Snake)
    requires |s.body| >= 2
  {
    s.body[1] == NextHead(s.body[0], Opposite(s.direction))
  }

  /**
   Composing `updateDirection` with a move: whatever key is pressed, the next
   head never lands on the second segment, because the only direction that
   leads there is the refused reversal.
   */
  lemma TurnNeverHitsNeck(s: Snake, k: Key)
    requires |s.body| >= 2 && NeckBehindHead(s)
    ensures var t := UpdateDirection(s, k);
            NextHead(t.Head(), t.direction) != s.body[1]
  {
  }

  /** A move without a teleport leaves the second segment behind the head. */
  lemma MoveKeepsNeck(g: Game, draws: Draws)
    requires WellFormed(g.board) && |g.snake.body| >= 1
    requires !PicksUp(g, Next(g))
    requires MoveSnake(g, draws).Moved? && |MoveSnake(g, draws).game.snake.body| >= 2
    ensures NeckBehindHead(MoveSnake(g, draws).game.snake)
  {
  }
}

=== FILE: wrappers.dfy ===
/** The usual optional value, used for operations that can run out of random draws. */
module Wrappers {

  datatype Option<+T> = None | Some(value: T)
}
